=== FILE: README.md ===
# A coding agent's command sanitizer and step loop, in Dafny

The agent asks a language model for one shell command at a time and runs it
inside a sandbox directory. This project models the two pieces of `app.py`
that hold logic:

- `clean_command`, which recovers a shell command from model text that may
  be wrapped in a markdown code fence. It trims the text. If the text opens
  with three backticks, it keeps only the segment between the first and
  second fence and deletes the tags `bash` and `python` from it. It then
  deletes every remaining fence and trims again.
- The step loop of `main`. It runs ten steps. Each step lists the sandbox,
  asks the model for a command given the task, that listing and the last
  output, cleans the reply, and runs it. The command's output becomes the
  next step's last output.

The project has three modules:

- `PyStr` (`pystr.dfy`) models Python `str` operations as pure functions
  on `seq<char>`: `strip()`, `startswith`, `split` and `replace`, which
  `clean_command` uses, and `in` and `join`, which the lemmas use to state
  its properties.
- `Sanitizer` (`sanitizer.dfy`) models `clean_command`.
- `Agent` (`agent.dfy`) models the loop.

An opaque state `W` stands for everything the folder listing and the
commands read or change. The sandbox directory is part of it. So is
whatever a command run with `shell=True` reaches outside the sandbox,
such as parent directories, the clock or the network. Listing the sandbox
(`get_folder_tree`), asking the model (`ask_llm`) and running a command
(`run_command`) are functions passed in as `Oracles`. `run_command` takes a
state and returns the new state together with the output.

The loop is modelled as `app.py` is written. It has no history buffer and
no `exit` check. A reply of `exit` is cleaned and run like any other
command. When no oracle raises, the loop always runs all ten steps.

## Model

| member | source | states |
|---|---|---|
| PyStr.Strip | app.py:84 | `strip()` returns a string with no leading or trailing whitespace. It is the slice left once a whitespace-only prefix and a whitespace-only suffix are cut. |
| PyStr.StripIsUnique | app.py:84 | Any cut of a string into whitespace, a trimmed middle and whitespace has `strip()`'s result as its middle. So the contract of `Strip` determines it. |
| PyStr.StripOfTrimmed | app.py:88 | Stripping a string with no leading or trailing whitespace changes nothing. |
| PyStr.StripPastSpace | app.py:84 | Putting whitespace in front of a string does not change its `strip()`. |
| PyStr.ReplaceWithoutPattern | app.py:87-88 | `replace` leaves a string that does not contain the pattern unchanged. |
| PyStr.ReplaceNoLonger | app.py:87-88 | Replacing a pattern with a string no longer than it never lengthens the text, so deleting tags and fences only shortens the command. |
| PyStr.ReplaceIsJoinOfSplit | app.py:86-88 | Python's identity `s.replace(p, r) == r.join(s.split(p))` holds for every non-empty pattern. |
| PyStr.Split | app.py:86 | `split(sep)` always has a first part, and it is a prefix of the input. When the input starts with `sep`, there are at least two parts and the first is empty, so `split("```")[1]` after a `startswith("```")` test is always in range. |
| PyStr.SplitJoinsBack | app.py:86 | Joining the parts of a split with the separator gives back the input. |
| PyStr.SplitPartsLackSep | app.py:86 | No part of a split contains the separator. |
| PyStr.SplitAtFirst | app.py:86 | When no separator starts inside `u`, splitting `u + sep + v` gives `u` followed by the parts of `v`. The split cuts at the first separator. |
| Sanitizer.CleanCommand | app.py:82-89 | The cleaned command has no leading or trailing whitespace and contains no fence. No input makes it fail, because the index `[1]` is in range whenever it is taken. |
| Sanitizer.FenceFreeAfterRemoval | app.py:88 | After `replace("```", "")`, no fence is left, whatever the input. |
| Sanitizer.BacktickRun | app.py:88 | `replace("```", "")` on a run of n backticks leaves n mod 3 of them. |
| Sanitizer.FenceRemovalKeepsWord | app.py:88 | A word with no backtick that occurs in the text still occurs after the fences are deleted. |
| Sanitizer.CleanWithoutFence | app.py:84-88 | Text that holds no fence is only trimmed. |
| Sanitizer.UnfencedKeepsWords | app.py:84-88 | When the trimmed text does not open with a fence, every backtick-free word that starts and ends with non-whitespace survives cleaning. This includes `bash` and `python`: tags are deleted only in the fenced branch. |
| Sanitizer.PlainCommandUnchanged | app.py:84-88 | A trimmed command with no backtick comes out unchanged. |
| Sanitizer.CleanIdempotent | app.py:82-89 | Cleaning twice gives the same result as cleaning once. |
| Sanitizer.SecondSegment | app.py:85-86 | For `"```" + body + "```" + rest`, where `body` has no fence and does not end in a backtick, the element at index 1 of the split is `body`. |
| Sanitizer.CleanPastSpace | app.py:84 | Leading whitespace in the reply does not change the cleaned command. |
| Sanitizer.FencedKeepsOnlyFirstBlock | app.py:84-88 | For input whose trimmed form opens with a fence (any leading whitespace, then "```" + body + "```" + rest), the result depends only on the first block. Everything after the second fence is discarded. |
| Sanitizer.BashBlockCleans | app.py:85-88 | A `bash` block, closed by a fence and holding no other backtick, cleans to the text after the tag with `bash` and then `python` deleted, trimmed. Each deletion removes the occurrences `replace` finds scanning left to right. |
| Sanitizer.FencedBashBlock | app.py:85-88 | A `bash` block holding one trimmed command line cleans to that command, whenever the command contains neither `bash` nor `python` and no backtick. This covers `printf`, `pip install` and `mkdir -p`. |
| Sanitizer.FencedBlockExample | app.py:85-88 | "```bash\necho hi > x.txt\n```" cleans to `echo hi > x.txt`. |
| Sanitizer.TagLineAndCommandLine | app.py:87 | For any text `s`, deleting a tag from a tag line and a next line that starts with the tag deletes both, and every occurrence in `s`, keeping the newline. |
| Sanitizer.BashCommandInBashBlock | app.py:85-88 | In a `bash` block whose command line starts with `bash` and holds no backtick, both leading occurrences are deleted, and the rest of the line loses its tags too. So `bash build.sh` cleans to `build.sh`. |
| Sanitizer.BashPrefixedCommand | app.py:85-88 | A `bash` block whose command line is `bash`, a space and a trimmed command cleans to that command, whenever the command holds neither `bash` nor `python` and no backtick. So `bash pip install flask` gives `pip install flask`. |
| Sanitizer.TagRemovedFromCommandExample | app.py:87 | "```bash\nbash run.sh\n```" cleans to `run.sh`. |
| Sanitizer.UnfencedCommandExample | app.py:84-88 | Unfenced, `bash run.sh` is kept whole. |
| Sanitizer.ExitCommandExample | app.py:84-88 | `exit` passes through cleaning unchanged. |
| Agent.StepsChained | app.py:96-101 | Running the loop body `n` times yields `n` records numbered consecutively. Each record lists the sandbox it starts from, asks with that listing and its last output, and runs the cleaned reply once. Each step starts from the sandbox and output that the previous step left. |
| Agent.RunShape | app.py:94-101 | The loop runs exactly ten steps, numbered 1 to 10. The first prompt receives `"None"` as its last output. Each later prompt receives the output of the step just before. |
| Agent.SessionShape | app.py:94-101 | `RunShape` for the loop with `clean_command` as the cleaner. |
| Agent.ConstantReply | app.py:96-101 | A model that always gives the same reply has that reply, cleaned, run at every one of the ten steps. |
| Agent.ExitDoesNotStop | app.py:96-101 | A model that always answers `exit` still gets ten prompts, and `exit` is run as a command at each step. |
| Agent.RunLoop | app.py:92-102 | The loop as written, for a given cleaner, produces exactly the ten chained records. Its final `last_output` and sandbox are those of the tenth step. |
| Agent.AgentMain | app.py:92-102 | `main` produces the ten records of the session with `clean_command` as the cleaner. Its final `last_output` and sandbox are those of the tenth step. |

## Left out

- `get_folder_tree` (app.py:16-21) shells out to `tree` and falls back to `ls -R`. It is the oracle `Oracles.tree`, and its fallback order is not modelled.
- `run_command` (app.py:24-37) runs a subprocess. It is the oracle `Oracles.run`. The concatenation of stdout and stderr and the `"Error: "` text on an exception depend on the operating system and are not modelled.
- `ask_llm` and `call_llm` (app.py:40-79) build the prompt template and call a network service. Together they are the oracle `Oracles.ask`, a function of the task, the folder listing and the last output. The `strip()` inside `call_llm` belongs to that oracle. It makes no difference, because `clean_command` strips again.
- Module setup (app.py:1-13) is left out: loading `.env`, creating the sandbox directory, constructing the client.
- Console I/O is left out. The task read by `input` (app.py:93) is a parameter. The `print` calls (app.py:100, 102) are not modelled. The step number they print is the `number` field of each record.
- PyStr.IsSpace: the whitespace set is fixed to space, tab, line feed, carriage return, vertical tab and form feed. Python's `strip()` also removes other Unicode whitespace, such as `\x1c`-`\x1f`, `\x85` and `\xa0`. This model does not.
- PyStr.Split: requires a non-empty separator. Python raises `ValueError` on an empty one, and `app.py` only ever splits on "```".
- Agent.RunLoop: the oracles are total functions, so the model always completes ten steps. In `app.py` the loop has no `try`: a failing `ls -R` fallback in `get_folder_tree` (app.py:21), or a network or API error or a `None` reply content in `call_llm` (app.py:42-50), raises out of `main` and ends it early. A command such as `cd .. && rm -rf agent_sandbox` can cause this at the next step on a host without `tree`.
- Agent.AgentMain: the same holds here. The model has no exception path, so it does not model `main` ending early when an oracle raises.
- The loop runs ten steps in sequence. The model has no timeouts and no concurrency, and neither does `app.py`.

=== FILE: agent.dfy ===
/**
 The step loop of `main`, reduced to its skeleton. An opaque state `W`
 stands for everything the listing and the commands read or change: the
 sandbox directory among it, and anything a shell command reaches beyond
 it. Listing the sandbox, asking the model and running a command are
 functions passed in. `last_output` is the only value one step hands
 to the next; the loop runs a fixed ten steps and, when no oracle raises, no command
 ends it early.
 */
module Agent {
  import opened Sanitizer

  /** `range(10)`: the number of steps `main` runs. */
  const MaxSteps: nat := 10

  /** What `last_output` holds before the first command has run. */
  const NoOutput: string := "None"

  /** The outside world as the loop sees it: `get_folder_tree` reads the
      sandbox, `ask_llm` maps (task, folder tree, last output) to the model's
      reply, and `run_command` runs a command, changing the sandbox and
      returning the command's output. */
  datatype Oracles<!W> = Oracles(
    tree: W -> string,
    ask: (string, string, string) -> string,
    run: (W, string) -> (W, string))

  /** One pass of the loop body: the step number printed, the sandbox
      before and after, the folder tree and last output the prompt was
      built from, the cleaned command and its output. */
  datatype StepRecord<W> = StepRecord(
    number: nat,
    before: W,
    tree: string,
    lastOutput: string,
    command: string,
    output: string,
    after: W)

  /** One iteration of the loop body, from sandbox `w` and the previous
      output `lastOutput`. */
  function Step<W>(o: Oracles<W>, clean: string -> string, task: string, number: nat, w: W, lastOutput: string): StepRecord<W>
  {
    var tree := o.tree(w);
    var command := clean(o.ask(task, tree, lastOutput));
    var (after, output) := o.run(w, command);
    StepRecord(number, w, tree, lastOutput, command, output, after)
  }

  /** `remaining` iterations starting at step `number`. */
  function Steps<W>(o: Oracles<W>, clean: string -> string, task: string, number: nat, w: W, lastOutput: string, remaining: nat): seq<StepRecord<W>>
    decreases remaining
  {
    if remaining == 0 then []
    else
      var rec := Step(o, clean, task, number, w, lastOutput);
      [rec] + Steps(o, clean, task, number + 1, rec.after, rec.output, remaining - 1)
  }

  /** One unfolding of `Steps`. */
  lemma StepsUnfold<W>(o: Oracles<W>, clean: string -> string, task: string, number: nat, w: W, lastOutput: string, remaining: nat)
    requires remaining > 0
    ensures var rec := Step(o, clean, task, number, w, lastOutput);
      Steps(o, clean, task, number, w, lastOutput, remaining)
      == [rec] + Steps(o, clean, task, number + 1, rec.after, rec.output, remaining - 1)
  {
  }

  /** Moving one step from the pending steps to the finished records keeps
      their concatenation. */
  lemma StepsAppend<W>(o: Oracles<W>, clean: string -> string, task: string, recs: seq<StepRecord<W>>, rec: StepRecord<W>, number: nat, w: W, lastOutput: string, remaining: nat, all: seq<StepRecord<W>>)
    requires remaining > 0 && rec == Step(o, clean, task, number, w, lastOutput)
    requires recs + Steps(o, clean, task, number, w, lastOutput, remaining) == all
    ensures (recs + [rec]) + Steps(o, clean, task, number + 1, rec.after, rec.output, remaining - 1) == all
  {
    var later := Steps(o, clean, task, number + 1, rec.after, rec.output, remaining - 1);
    StepsUnfold(o, clean, task, number, w, lastOutput, remaining);
    assert (recs + [rec]) + later == recs + ([rec] + later);
  }

  /** The steps still to run once `step` iterations of `range(10)` are done,
      from sandbox `w` with last output `lastOutput`. */
  function Pending<W>(o: Oracles<W>, clean: string -> string, task: string, step: nat, w: W, lastOutput: string): seq<StepRecord<W>>
    requires step <= MaxSteps
  {
    Steps(o, clean, task, step + 1, w, lastOutput, MaxSteps - step)
  }

  /** `StepsAppend` in terms of the iterations done so far. */
  lemma PendingAppend<W>(o: Oracles<W>, clean: string -> string, task: string, recs: seq<StepRecord<W>>, rec: StepRecord<W>, step: nat, w: W, lastOutput: string, all: seq<StepRecord<W>>)
    requires step < MaxSteps && rec == Step(o, clean, task, step + 1, w, lastOutput)
    requires recs + Pending(o, clean, task, step, w, lastOutput) == all
    ensures (recs + [rec]) + Pending(o, clean, task, step + 1, rec.after, rec.output) == all
  {
    StepsAppend(o, clean, task, recs, rec, step + 1, w, lastOutput, MaxSteps - step, all);
  }

  /** The ten iterations of `main`'s loop on `task` from sandbox `w0`,
      numbered from 1, the first prompt getting `"None"` as last output, and
      each reply passed through `clean`. */
  function Run<W>(o: Oracles<W>, clean: string -> string, task: string, w0: W): seq<StepRecord<W>>
  {
    Steps(o, clean, task, 1, w0, NoOutput, MaxSteps)
  }

  /** The whole run of `main`: the loop with `CleanCommand` as the cleaner. */
  function Session<W>(o: Oracles<W>, task: string, w0: W): seq<StepRecord<W>>
  {
    Run(o, CleanCommand, task, w0)
  }

  /** A record is what one pass of the loop body produces: the tree is read
      from the sandbox before the step, the command is the cleaned reply to
      a prompt built from the task, that tree and the record's last output,
      and the command is run exactly once, on that sandbox. */
  ghost predicate FollowsLoopBody<W>(o: Oracles<W>, clean: string -> string, task: string, rec: StepRecord<W>) {
    && rec.tree == o.tree(rec.before)
    && rec.command == clean(o.ask(task, rec.tree, rec.lastOutput))
    && (rec.after, rec.output) == o.run(rec.before, rec.command)
  }

  /** `recs` is a run of consecutive steps numbered from `number`, starting
      from sandbox `w` with last output `lastOutput`, where each step's
      sandbox and last output are those the previous step left. */
  ghost predicate Chained<W>(o: Oracles<W>, clean: string -> string, task: string, number: nat, w: W, lastOutput: string, recs: seq<StepRecord<W>>) {
    && (recs != [] ==> recs[0].before == w && recs[0].lastOutput == lastOutput)
    && (forall i :: 0 <= i < |recs| ==> recs[i].number == number + i && FollowsLoopBody(o, clean, task, recs[i]))
    && (forall i :: 0 < i < |recs| ==> recs[i].before == recs[i - 1].after && recs[i].lastOutput == recs[i - 1].output)
  }

  /** `Steps` runs exactly `remaining` iterations and chains them. */
  lemma {:induction false} StepsChained<W>(o: Oracles<W>, clean: string -> string, task: string, number: nat, w: W, lastOutput: string, remaining: nat)
    ensures |Steps(o, clean, task, number, w, lastOutput, remaining)| == remaining
    ensures Chained(o, clean, task, number, w, lastOutput, Steps(o, clean, task, number, w, lastOutput, remaining))
    decreases remaining
  {
    if remaining > 0 {
      var rec := Step(o, clean, task, number, w, lastOutput);
      var rest := Steps(o, clean, task, number + 1, rec.after, rec.output, remaining - 1);
      StepsChained(o, clean, task, number + 1, rec.after, rec.output, remaining - 1);
      StepsUnfold(o, clean, task, number, w, lastOutput, remaining);
      var recs := [rec] + rest;
      assert |recs| == remaining;
      forall i | 0 <= i < |recs|
        ensures recs[i].number == number + i && FollowsLoopBody(o, clean, task, recs[i])
      {
        if i > 0 {
          assert recs[i] == rest[i - 1];
        }
      }
      forall i | 0 < i < |recs|
        ensures recs[i].before == recs[i - 1].after && recs[i].lastOutput == recs[i - 1].output
      {
        assert recs[i] == rest[i - 1];
        if i > 1 {
          assert recs[i - 1] == rest[i - 2];
        }
      }
    }
  }

  /** The loop runs exactly ten steps numbered 1 to 10. The first prompt
      gets `"None"` as last output, every later prompt gets the output of
      the step just before, and every step runs its cleaned reply once. */
  lemma RunShape<W>(o: Oracles<W>, clean: string -> string, task: string, w0: W)
    ensures |Run(o, clean, task, w0)| == MaxSteps
    ensures Chained(o, clean, task, 1, w0, NoOutput, Run(o, clean, task, w0))
  {
    StepsChained(o, clean, task, 1, w0, NoOutput, MaxSteps);
  }

  /** `RunShape` for `main` itself. */
  lemma SessionShape<W>(o: Oracles<W>, task: string, w0: W)
    ensures |Session(o, task, w0)| == MaxSteps
    ensures Chained(o, CleanCommand, task, 1, w0, NoOutput, Session(o, task, w0))
  {
    RunShape(o, CleanCommand, task, w0);
  }

  /** A model that gives the same reply to every prompt has that reply,
      cleaned, run at each of the ten steps, on the sandbox the step
      before left. */
  lemma ConstantReply<W>(o: Oracles<W>, clean: string -> string, task: string, w0: W, reply: string)
    requires forall t, f, l :: o.ask(t, f, l) == reply
    ensures |Run(o, clean, task, w0)| == MaxSteps
    ensures forall i :: 0 <= i < MaxSteps ==>
      var rec := Run(o, clean, task, w0)[i];
      rec.command == clean(reply) && (rec.after, rec.output) == o.run(rec.before, clean(reply))
  {
    RunShape(o, clean, task, w0);
    var recs := Run(o, clean, task, w0);
    forall i | 0 <= i < MaxSteps
      ensures recs[i].command == clean(reply)
    {
      assert FollowsLoopBody(o, clean, task, recs[i]);
      assert o.ask(task, recs[i].tree, recs[i].lastOutput) == reply;
    }
  }

  /** When no oracle raises, no reply ends the loop early: a model that
      always answers `exit` still gets ten prompts, and `exit` is run as a
      command each time. */
  lemma ExitDoesNotStop<W>(o: Oracles<W>, task: string, w0: W)
    requires forall t, f, l :: o.ask(t, f, l) == "exit"
    ensures |Session(o, task, w0)| == MaxSteps
    ensures forall i :: 0 <= i < MaxSteps ==>
      var rec := Session(o, task, w0)[i];
      rec.command == "exit" && (rec.after, rec.output) == o.run(rec.before, "exit")
  {
    ConstantReply(o, CleanCommand, task, w0, "exit");
    ExitCommandExample();
  }

  /** The loop body: list the sandbox, ask the model, clean its reply and
      run it once. */
  method RunStep<W>(o: Oracles<W>, clean: string -> string, task: string, number: nat, w: W, lastOutput: string) returns (rec: StepRecord<W>)
    ensures rec == Step(o, clean, task, number, w, lastOutput)
  {
    var tree := o.tree(w);
    var command := clean(o.ask(task, tree, lastOutput));
    var result := o.run(w, command);
    rec := StepRecord(number, w, tree, lastOutput, command, result.1, result.0);
  }

  /** The last output and sandbox after the steps `recs`, from sandbox `w0`. */
  function LastState<W>(recs: seq<StepRecord<W>>, w0: W): (string, W)
  {
    if recs == [] then (NoOutput, w0) else (recs[|recs| - 1].output, recs[|recs| - 1].after)
  }

  /** Once all ten iterations are done, the records the loop built are the
      whole run. */
  lemma LoopGivesRun<W>(o: Oracles<W>, clean: string -> string, task: string, w0: W, recs: seq<StepRecord<W>>, w: W, lastOutput: string, all: seq<StepRecord<W>>)
    requires all == Pending(o, clean, task, 0, w0, NoOutput)
    requires recs + Pending(o, clean, task, MaxSteps, w, lastOutput) == all
    ensures recs == Run(o, clean, task, w0)
  {
    assert recs + [] == recs;
  }

  /** The loop of `main`, `range(10)` with `last_output` carried from one
      step to the next, for a given cleaner. It returns the records of the
      steps, the final `last_output` and the final sandbox. */
  method RunLoop<W>(o: Oracles<W>, clean: string -> string, task: string, w0: W) returns (recs: seq<StepRecord<W>>, lastOutput: string, w: W)
    ensures recs == Run(o, clean, task, w0)
    ensures |recs| == MaxSteps
    ensures Chained(o, clean, task, 1, w0, NoOutput, recs)
    ensures lastOutput == recs[MaxSteps - 1].output && w == recs[MaxSteps - 1].after
  {
    recs := [];
    lastOutput := NoOutput;
    w := w0;
    ghost var all := Pending(o, clean, task, 0, w0, NoOutput);
    var step := 0;
    while step < MaxSteps
      invariant step <= MaxSteps && |recs| == step
      invariant recs + Pending(o, clean, task, step, w, lastOutput) == all
      invariant (lastOutput, w) == LastState(recs, w0)
    {
      var rec := RunStep(o, clean, task, step + 1, w, lastOutput);
      PendingAppend(o, clean, task, recs, rec, step, w, lastOutput, all);
      recs := recs + [rec];
      lastOutput := rec.output;
      w := rec.after;
      step := step + 1;
    }
    LoopGivesRun(o, clean, task, w0, recs, w, lastOutput, all);
    RunShape(o, clean, task, w0);
  }

  /** `main`: the loop with each reply cleaned by `CleanCommand`. */
  method AgentMain<W>(o: Oracles<W>, task: string, w0: W) returns (recs: seq<StepRecord<W>>, lastOutput: string, w: W)
    ensures recs == Session(o, task, w0)
    ensures |recs| == MaxSteps
    ensures Chained(o, CleanCommand, task, 1, w0, NoOutput, recs)
    ensures lastOutput == recs[MaxSteps - 1].output && w == recs[MaxSteps - 1].after
  {
    recs, lastOutput, w := RunLoop(o, CleanCommand, task, w0);
  }
}

=== FILE: pystr.dfy ===
/**
 Python `str` operations as pure functions on `seq<char>`: `strip()`,
 `startswith`, `split` and `replace`, which `clean_command` uses, and `in`
 and `join`, which the lemmas use to state its properties.
 */
module PyStr {

  /** The whitespace characters `strip()` removes in this model:
      space, tab, line feed, carriage return, vertical tab and form feed. */
  predicate IsSpace(c: char) {
    c == ' ' || c == '\t' || c == '\n' || c == '\r' || c == '\U{0B}' || c == '\U{0C}'
  }

  /** Every character of `s` in the index range `[lo, hi)` is whitespace. */
  predicate SpaceBetween(s: string, lo: int, hi: int)
    requires 0 <= lo <= hi <= |s|
  {
    forall i :: lo <= i < hi ==> IsSpace(s[i])
  }

  /** Neither the first nor the last character is whitespace. */
  predicate IsTrimmed(s: string) {
    s == [] || (!IsSpace(s[0]) && !IsSpace(s[|s| - 1]))
  }

  /** The index of the first non-whitespace character at or after `from`,
      or `|s|` when there is none. */
  function SkipSpace(s: string, from: nat): (k: nat)
    requires from <= |s|
    ensures from <= k <= |s| && SpaceBetween(s, from, k)
    ensures k < |s| ==> !IsSpace(s[k])
    decreases |s| - from
  {
    if from == |s| || !IsSpace(s[from]) then from else SkipSpace(s, from + 1)
  }

  /** The end of `s[lo..hi]` once its trailing whitespace is dropped. */
  function SkipSpaceBack(s: string, lo: nat, hi: nat): (k: nat)
    requires lo <= hi <= |s|
    ensures lo <= k <= hi && SpaceBetween(s, k, hi)
    ensures lo < k ==> !IsSpace(s[k - 1])
    decreases hi
  {
    if hi == lo || !IsSpace(s[hi - 1]) then hi else SkipSpaceBack(s, lo, hi - 1)
  }

  /** `s.strip()`: the result is trimmed, and it is the slice of `s` left
      once a whitespace-only prefix and a whitespace-only suffix are cut. */
  function Strip(s: string): (r: string)
    ensures IsTrimmed(r)
    ensures var k := SkipSpace(s, 0);
      k + |r| <= |s| && r == s[k..k + |r|] && SpaceBetween(s, 0, k) && SpaceBetween(s, k + |r|, |s|)
  {
    var i := SkipSpace(s, 0);
    s[i..SkipSpaceBack(s, i, |s|)]
  }

  /** Any cut of `s` into whitespace, a trimmed middle and whitespace has
      `Strip(s)` as its middle: `Strip` is the only function with the
      contract above. */
  lemma StripIsUnique(s: string, i: int, j: int)
    requires 0 <= i <= j <= |s|
    requires SpaceBetween(s, 0, i) && SpaceBetween(s, j, |s|)
    requires IsTrimmed(s[i..j])
    ensures Strip(s) == s[i..j]
  {
    var k := SkipSpace(s, 0);
    var r := Strip(s);
    if i < j {
      // the first non-space character of s sits at i, the last at j - 1
      assert !IsSpace(s[i]) by { assert s[i] == s[i..j][0]; }
      assert !IsSpace(s[j - 1]) by { assert s[j - 1] == s[i..j][j - i - 1]; }
      assert k == i;
      assert k + |r| == j;
    }
  }

  /** A trimmed string is its own strip. */
  lemma StripOfTrimmed(s: string)
    requires IsTrimmed(s)
    ensures Strip(s) == s
  {
    assert s[0..|s|] == s;
    StripIsUnique(s, 0, |s|);
  }

  /** Leading whitespace does not change the strip. */
  lemma StripPastSpace(ws: string, s: string)
    requires SpaceBetween(ws, 0, |ws|)
    ensures Strip(ws + s) == Strip(s)
  {
    var k := SkipSpace(s, 0);
    var r := Strip(s);
    var t := ws + s;
    var i := |ws| + k;
    var j := i + |r|;
    assert t[i..j] == r by {
      forall p | 0 <= p < |r| ensures t[i..j][p] == r[p] {
        assert r[p] == s[k + p];
      }
    }
    assert SpaceBetween(t, 0, i) by {
      forall p | 0 <= p < i ensures IsSpace(t[p]) {
        if p < |ws| {
          assert t[p] == ws[p];
        } else {
          assert t[p] == s[p - |ws|];
        }
      }
    }
    assert SpaceBetween(t, j, |t|) by {
      forall p | j <= p < |t| ensures IsSpace(t[p]) {
        assert t[p] == s[p - |ws|];
      }
    }
    StripIsUnique(t, i, j);
  }

  /** `s.startswith(prefix)`. */
  predicate StartsWith(s: string, prefix: string) {
    prefix <= s
  }

  /** `pat in s`: `pat` is a prefix of some suffix of `s`. */
  predicate Contains(s: string, pat: string)
    decreases |s|
  {
    pat <= s || (s != [] && Contains(s[1..], pat))
  }

  /** One unfolding of `Contains` on a string with a known first character. */
  lemma ContainsCons(c: char, t: string, pat: string)
    ensures Contains([c] + t, pat) <==> StartsWith([c] + t, pat) || Contains(t, pat)
  {
    assert ([c] + t)[1..] == t;
  }

  /** A pattern longer than `s` does not occur in it. */
  lemma ContainsNeedsRoom(s: string, pat: string)
    requires |s| < |pat|
    ensures !Contains(s, pat)
    decreases |s|
  {
    if s != [] {
      ContainsNeedsRoom(s[1..], pat);
    }
  }

  /** `pat` occurs in `s` starting at index `i`. */
  ghost predicate OccursAt(s: string, pat: string, i: int) {
    0 <= i && i + |pat| <= |s| && s[i..i + |pat|] == pat
  }

  /** An occurrence in the tail of `s` is an occurrence in `s`, one
      position later. */
  lemma OccursInTail(s: string, pat: string, i: int)
    requires s != [] && OccursAt(s[1..], pat, i)
    ensures OccursAt(s, pat, i + 1)
  {
    assert s[i + 1..i + 1 + |pat|] == s[1..][i..i + |pat|];
  }

  /** An occurrence past the first position is an occurrence in the tail. */
  lemma OccursPastHead(s: string, pat: string, i: int)
    requires 0 < i && OccursAt(s, pat, i)
    ensures OccursAt(s[1..], pat, i - 1)
  {
    assert s[1..][i - 1..i - 1 + |pat|] == s[i..i + |pat|];
  }

  /** The recursive `Contains` agrees with the positional definition of an
      occurrence, in both directions. */
  lemma {:induction false} ContainsIffOccurs(s: string, pat: string)
    ensures Contains(s, pat) <==> exists i :: OccursAt(s, pat, i)
    decreases |s|
  {
    if pat <= s {
      assert OccursAt(s, pat, 0);
    } else if s != [] {
      ContainsIffOccurs(s[1..], pat);
      if Contains(s[1..], pat) {
        var i :| OccursAt(s[1..], pat, i);
        OccursInTail(s, pat, i);
      }
      if exists i :: OccursAt(s, pat, i) {
        var i :| OccursAt(s, pat, i);
        assert i != 0;
        OccursPastHead(s, pat, i);
      }
    }
  }

  /** A pattern whose first character never appears in `s` does not occur in it. */
  lemma NotContainsWithoutHead(s: string, pat: string)
    requires pat != [] && pat[0] !in s
    ensures !Contains(s, pat)
    decreases |s|
  {
    if s != [] {
      assert s[0] in s;
      assert forall c :: c in s[1..] ==> c in s;
      NotContainsWithoutHead(s[1..], pat);
    }
  }

  /** A final character that `pat` does not hold cannot be part of an
      occurrence, so it may be dropped. */
  lemma {:induction false} ContainsDropLast(t: string, c: char, pat: string)
    requires pat != [] && c !in pat
    requires Contains(t + [c], pat)
    ensures Contains(t, pat)
    decreases |t|
  {
    if pat <= t + [c] {
      assert (t + [c])[|t|] == c;
      if |pat| > |t| {
        // then pat == t + [c], which holds c
        assert false;
      }
      assert pat == t[..|pat|];
    } else {
      assert (t + [c])[1..] == t[1..] + [c];
      ContainsDropLast(t[1..], c, pat);
    }
  }

  /** An occurrence inside a slice is an occurrence in the whole string. */
  lemma ContainsInSlice(s: string, i: int, j: int, pat: string)
    requires 0 <= i <= j <= |s|
    requires Contains(s[i..j], pat)
    ensures Contains(s, pat)
  {
    ContainsIffOccurs(s[i..j], pat);
    var p :| OccursAt(s[i..j], pat, p);
    var t := s[i..j];
    assert i + p + |pat| <= j;
    forall k | 0 <= k < |pat|
      ensures s[i + p..i + p + |pat|][k] == pat[k]
    {
      assert pat[k] == t[p..p + |pat|][k] == t[p + k] == s[i + p + k];
    }
    assert s[i + p..i + p + |pat|] == pat;
    assert OccursAt(s, pat, i + p);
    ContainsIffOccurs(s, pat);
  }

  /** `s.replace(pat, rep)`: occurrences of `pat` are replaced scanning from
      the left, without overlap. An empty `pat` inserts `rep` before every
      character and once at the end, as Python does. */
  function Replace(s: string, pat: string, rep: string): string
    decreases |s|
  {
    if pat == [] then
      if s == [] then rep else rep + [s[0]] + Replace(s[1..], pat, rep)
    else if pat <= s then
      rep + Replace(s[|pat|..], pat, rep)
    else if s == [] then
      []
    else
      [s[0]] + Replace(s[1..], pat, rep)
  }

  /** Replacing a pattern that does not occur changes nothing. */
  lemma {:induction false} ReplaceWithoutPattern(s: string, pat: string, rep: string)
    requires pat != [] && !Contains(s, pat)
    ensures Replace(s, pat, rep) == s
    decreases |s|
  {
    if s != [] {
      ReplaceWithoutPattern(s[1..], pat, rep);
      assert s == [s[0]] + s[1..];
    }
  }

  /** Replacing a pattern by a string no longer than it never lengthens the
      text. */
  lemma {:induction false} ReplaceNoLonger(s: string, pat: string, rep: string)
    requires pat != [] && |rep| <= |pat|
    ensures |Replace(s, pat, rep)| <= |s|
    decreases |s|
  {
    if StartsWith(s, pat) {
      ReplaceNoLonger(s[|pat|..], pat, rep);
    } else if s != [] {
      ReplaceNoLonger(s[1..], pat, rep);
    }
  }

  /** One unfolding of `Replace` at an occurrence of `pat`. */
  lemma ReplaceHit(s: string, pat: string, rep: string)
    requires pat != [] && StartsWith(s, pat)
    ensures Replace(s, pat, rep) == rep + Replace(s[|pat|..], pat, rep)
  {
  }

  /** One unfolding of `Replace` where no occurrence of `pat` starts. */
  lemma ReplaceMiss(s: string, pat: string, rep: string)
    requires pat != [] && s != [] && !StartsWith(s, pat)
    ensures Replace(s, pat, rep) == [s[0]] + Replace(s[1..], pat, rep)
  {
  }

  /** Deleting a pattern never brings in a character the text lacked. */
  lemma {:induction false} DeleteKeepsAbsentChar(s: string, pat: string, c: char)
    requires pat != [] && c !in s
    ensures c !in Replace(s, pat, "")
    decreases |s|
  {
    if StartsWith(s, pat) {
      ReplaceHit(s, pat, "");
      assert forall d :: d in s[|pat|..] ==> d in s;
      DeleteKeepsAbsentChar(s[|pat|..], pat, c);
    } else if s != [] {
      ReplaceMiss(s, pat, "");
      assert s[0] in s;
      assert forall d :: d in s[1..] ==> d in s;
      DeleteKeepsAbsentChar(s[1..], pat, c);
    }
  }

  /** `sep.join(parts)`. */
  function Join(parts: seq<string>, sep: string): string
  {
    if parts == [] then []
    else if |parts| == 1 then parts[0]
    else parts[0] + sep + Join(parts[1..], sep)
  }

  /** Growing the first part of a join grows the joined string at its front. */
  lemma JoinGrowFirst(c: char, parts: seq<string>, sep: string)
    requires parts != []
    ensures Join([[c] + parts[0]] + parts[1..], sep) == [c] + Join(parts, sep)
  {
    var grown := [[c] + parts[0]] + parts[1..];
    assert grown[1..] == parts[1..];
  }

  /** Joining parts whose first part is empty starts with the separator. */
  lemma JoinEmptyFirst(rest: seq<string>, sep: string)
    requires rest != []
    ensures Join([[]] + rest, sep) == sep + Join(rest, sep)
  {
    assert ([[]] + rest)[1..] == rest;
  }

  /** `s.split(sep)` for a non-empty `sep` (Python rejects an empty one).
      There is always a first part, it is a prefix of `s`, and when `s`
      starts with `sep` there are at least two parts, the first of them
      empty. */
  function Split(s: string, sep: string): (parts: seq<string>)
    requires sep != []
    ensures |parts| >= 1 && parts[0] <= s
    ensures StartsWith(s, sep) ==> |parts| >= 2 && parts[0] == []
    decreases |s|
  {
    if sep <= s then
      [[]] + Split(s[|sep|..], sep)
    else if s == [] then
      [[]]
    else
      var rest := Split(s[1..], sep);
      [[s[0]] + rest[0]] + rest[1..]
  }

  /** Joining the parts of a split back with the separator gives the
      original string. */
  lemma {:induction false} SplitJoinsBack(s: string, sep: string)
    requires sep != []
    ensures Join(Split(s, sep), sep) == s
    decreases |s|
  {
    if StartsWith(s, sep) {
      var t := s[|sep|..];
      SplitJoinsBack(t, sep);
      SplitHit(s, sep);
      JoinEmptyFirst(Split(t, sep), sep);
      assert s == sep + t;
    } else if s != [] {
      SplitJoinsBack(s[1..], sep);
      SplitMiss(s, sep);
      JoinGrowFirst(s[0], Split(s[1..], sep), sep);
      assert s == [s[0]] + s[1..];
    }
  }

  /** One unfolding of `Split` at an occurrence of `sep`. */
  lemma SplitHit(s: string, sep: string)
    requires sep != [] && StartsWith(s, sep)
    ensures Split(s, sep) == [[]] + Split(s[|sep|..], sep)
  {
  }

  /** One unfolding of `Split` where no occurrence of `sep` starts. */
  lemma SplitMiss(s: string, sep: string)
    requires sep != [] && s != [] && !StartsWith(s, sep)
    ensures Split(s, sep) == [[s[0]] + Split(s[1..], sep)[0]] + Split(s[1..], sep)[1..]
  {
  }

  /** No part of a split contains the separator. */
  lemma {:induction false} SplitPartsLackSep(s: string, sep: string)
    requires sep != []
    ensures forall k :: 0 <= k < |Split(s, sep)| ==> !Contains(Split(s, sep)[k], sep)
    decreases |s|
  {
    var parts := Split(s, sep);
    if sep <= s {
      SplitPartsLackSep(s[|sep|..], sep);
      var rest := Split(s[|sep|..], sep);
      forall k | 0 <= k < |parts| ensures !Contains(parts[k], sep) {
        if k > 0 {
          assert parts[k] == rest[k - 1];
        }
      }
    } else if s != [] {
      SplitPartsLackSep(s[1..], sep);
      var rest := Split(s[1..], sep);
      var first := [s[0]] + rest[0];
      assert first <= s;
      assert !Contains(first, sep) by {
        assert first[1..] == rest[0];
      }
      forall k | 0 <= k < |parts| ensures !Contains(parts[k], sep) {
        if k > 0 {
          assert parts[k] == rest[k];
        }
      }
    }
  }

  /** Splitting at the first occurrence of `sep`: when no occurrence of `sep`
      starts inside `u`, the first part of `u + sep + v` is `u`. */
  lemma {:induction false} SplitAtFirst(u: string, sep: string, v: string)
    requires sep != []
    requires !Contains(u + sep[..|sep| - 1], sep)
    ensures Split(u + sep + v, sep) == [u] + Split(v, sep)
    decreases |u|
  {
    var s := u + sep + v;
    if u == [] {
      assert s == sep + v;
      assert s[|sep|..] == v;
    } else {
      var t := u[1..] + sep + v;
      assert s == [u[0]] + t;
      SplitAtFirstStep(u, sep, v);
      SplitCons(u[0], t, sep);
      SplitAtFirst(u[1..], sep, v);
      assert [u[0]] + u[1..] == u;
    }
  }

  /** One unfolding of `Split` where the string does not start with `sep`. */
  lemma SplitCons(c: char, t: string, sep: string)
    requires sep != [] && !StartsWith([c] + t, sep)
    ensures Split([c] + t, sep) == [[c] + Split(t, sep)[0]] + Split(t, sep)[1..]
  {
    assert ([c] + t)[1..] == t;
  }

  /** The step of `SplitAtFirst`: `u + sep + v` does not start with `sep`,
      and the hypothesis carries over to the tail of `u`. */
  lemma SplitAtFirstStep(u: string, sep: string, v: string)
    requires sep != [] && u != []
    requires !Contains(u + sep[..|sep| - 1], sep)
    ensures !StartsWith(u + sep + v, sep)
    ensures !Contains(u[1..] + sep[..|sep| - 1], sep)
  {
    var w := u + sep[..|sep| - 1];
    assert !(sep <= w);
    assert (u + sep + v)[..|sep|] == w[..|sep|];
    assert w[1..] == u[1..] + sep[..|sep| - 1];
  }

  /** Python's identity `s.replace(pat, rep) == rep.join(s.split(pat))`. */
  lemma {:induction false} ReplaceIsJoinOfSplit(s: string, pat: string, rep: string)
    requires pat != []
    ensures Replace(s, pat, rep) == Join(Split(s, pat), rep)
    decreases |s|
  {
    if StartsWith(s, pat) {
      var t := s[|pat|..];
      ReplaceIsJoinOfSplit(t, pat, rep);
      ReplaceHit(s, pat, rep);
      SplitHit(s, pat);
      JoinEmptyFirst(Split(t, pat), rep);
    } else if s != [] {
      ReplaceIsJoinOfSplit(s[1..], pat, rep);
      ReplaceMiss(s, pat, rep);
      SplitMiss(s, pat);
      JoinGrowFirst(s[0], Split(s[1..], pat), rep);
    }
  }
}

=== FILE: sanitizer.dfy ===
/**
 `clean_command`: recovers a shell command from model text that may be
 wrapped in a markdown code fence.
 */
module Sanitizer {
  import opened PyStr

  /** The markdown code-fence delimiter. */
  const Fence: string := "```"

  /** Text starts with a fence exactly when its first three characters are
      backticks. */
  lemma StartsWithFence(s: string)
    ensures StartsWith(s, Fence) <==> |s| >= 3 && s[0] == '`' && s[1] == '`' && s[2] == '`'
  {
    if |s| >= 3 && s[0] == '`' && s[1] == '`' && s[2] == '`' {
      assert s[..3] == Fence;
    }
  }

  /** Deletes the language tags `bash` and then `python`, each occurrence
      that `replace` finds scanning left to right. A tag that a deletion
      brings together (`bbashash`) survives. */
  function RemoveTags(s: string): string {
    Replace(Replace(s, "bash", ""), "python", "")
  }

  /** `clean_command(cmd)`. Trim; when the text opens with a fence keep only
      the segment between the first and second fence and delete the tags
      from it; delete every remaining fence; trim again. The result is
      trimmed and holds no fence, and indexing the second segment is always
      in range, so no input makes the function fail. */
  function CleanCommand(cmd: string): (r: string)
    ensures IsTrimmed(r)
    ensures !Contains(r, Fence)
  {
    var trimmed := Strip(cmd);
    var unwrapped := if StartsWith(trimmed, Fence) then RemoveTags(Split(trimmed, Fence)[1]) else trimmed;
    var unfenced := Replace(unwrapped, Fence, "");
    FenceFreeAfterRemoval(unwrapped);
    StripKeepsAbsent(unfenced, Fence);
    Strip(unfenced)
  }

  /** Fence removal passes a backtick-free prefix through unchanged. */
  lemma {:induction false} FenceRemovalSkipsPlainPrefix(u: string, v: string)
    requires '`' !in u
    ensures Replace(u + v, Fence, "") == u + Replace(v, Fence, "")
    decreases |u|
  {
    if u == [] {
      assert u + v == v;
    } else {
      assert u[0] in u;
      assert '`' !in u[1..] by {
        assert u == [u[0]] + u[1..];
      }
      FenceRemovalSkipsPlainPrefix(u[1..], v);
      FenceRemovalPlainStep(u[0], u[1..], v);
      assert u == [u[0]] + u[1..];
    }
  }

  /** The step of `FenceRemovalSkipsPlainPrefix`: a non-backtick in front
      is kept. */
  lemma FenceRemovalPlainStep(c: char, t: string, v: string)
    requires c != '`'
    requires Replace(t + v, Fence, "") == t + Replace(v, Fence, "")
    ensures Replace([c] + t + v, Fence, "") == [c] + t + Replace(v, Fence, "")
  {
    assert [c] + t + v == [c] + (t + v);
    DeleteTagSkipsChar(c, Fence, t + v);
  }

  /** A string that opens with a non-backtick keeps that first character
      through fence removal. */
  lemma FenceRemovalKeepsHead(u: string)
    requires u != [] && u[0] != '`'
    ensures Replace(u, Fence, "") != [] && Replace(u, Fence, "")[0] == u[0]
  {
    StartsWithFence(u);
  }

  /** No fence survives `replace("```", "")`. A run of n backticks is left
      with n % 3 of them (`BacktickRun`), and the characters that bound the
      run are not backticks, so two short runs never meet. */
  lemma {:induction false} FenceFreeAfterRemoval(s: string)
    ensures !Contains(Replace(s, Fence, ""), Fence)
    decreases |s|
  {
    StartsWithFence(s);
    if StartsWith(s, Fence) {
      ReplaceHit(s, Fence, "");
      assert Replace(s, Fence, "") == Replace(s[3..], Fence, "");
      FenceFreeAfterRemoval(s[3..]);
    } else if s != [] {
      var tail := Replace(s[1..], Fence, "");
      FenceFreeAfterRemoval(s[1..]);
      ReplaceMiss(s, Fence, "");
      ContainsCons(s[0], tail, Fence);
      StartsWithFence([s[0]] + tail);
      if s[0] == '`' && |s| >= 2 {
        if s[1] != '`' {
          FenceRemovalKeepsHead(s[1..]);
        } else if |s| >= 3 {
          // s opens with exactly two backticks, so s[2] is not one
          StartsWithFence(s[1..]);
          FenceRemovalKeepsHead(s[2..]);
          assert s[1..][1..] == s[2..];
          ReplaceMiss(s[1..], Fence, "");
        } else {
          StartsWithFence(s[1..]);
          assert tail == s[1..];
        }
      }
    }
  }

  /** A run of `n` backticks. */
  function Backticks(n: nat): string {
    seq(n, _ => '`')
  }

  /** A run of at least three backticks is a fence and a shorter run. */
  lemma BackticksOpenWithFence(n: nat)
    requires n >= 3
    ensures Backticks(n) == Fence + Backticks(n - 3)
  {
    var b := Backticks(n);
    var c := Fence + Backticks(n - 3);
    assert |b| == |c|;
    forall k | 0 <= k < n
      ensures b[k] == c[k]
    {
    }
  }

  /** `replace("```", "")` on a run of `n` backticks leaves `n % 3` of them. */
  lemma {:induction false} BacktickRun(n: nat)
    ensures Replace(Backticks(n), Fence, "") == Backticks(n % 3)
    decreases n
  {
    if n >= 3 {
      BackticksOpenWithFence(n);
      DeleteLeadingTag(Fence, Backticks(n - 3));
      BacktickRun(n - 3);
    } else {
      ContainsNeedsRoom(Backticks(n), Fence);
      ReplaceWithoutPattern(Backticks(n), Fence, "");
    }
  }

  /** A pattern absent from `s` is absent from `Strip(s)`. */
  lemma StripKeepsAbsent(s: string, pat: string)
    requires !Contains(s, pat)
    ensures !Contains(Strip(s), pat)
  {
    var k := SkipSpace(s, 0);
    var r := Strip(s);
    if Contains(r, pat) {
      ContainsInSlice(s, k, k + |r|, pat);
    }
  }

  /** An occurrence of a word that begins and ends with non-whitespace lies
      inside the slice `Strip` keeps. */
  lemma StripKeepsOccurrence(s: string, w: string, i: int)
    requires w != [] && !IsSpace(w[0]) && !IsSpace(w[|w| - 1])
    requires OccursAt(s, w, i)
    ensures OccursAt(Strip(s), w, i - SkipSpace(s, 0))
  {
    var k := SkipSpace(s, 0);
    var r := Strip(s);
    assert s[i] == w[0];
    assert s[i + |w| - 1] == w[|w| - 1];
    assert k <= i;
    assert i + |w| <= k + |r|;
    assert r == s[k..k + |r|];
    forall p | 0 <= p < |w|
      ensures r[i - k..i - k + |w|][p] == w[p]
    {
      assert r[i - k + p] == s[i + p] == s[i..i + |w|][p];
    }
  }

  /** A word that begins and ends with non-whitespace survives `Strip`. */
  lemma StripKeepsWord(s: string, w: string)
    requires w != [] && !IsSpace(w[0]) && !IsSpace(w[|w| - 1])
    requires Contains(s, w)
    ensures Contains(Strip(s), w)
  {
    ContainsIffOccurs(s, w);
    var i :| OccursAt(s, w, i);
    StripKeepsOccurrence(s, w, i);
    ContainsIffOccurs(Strip(s), w);
  }

  /** A backtick-free word survives `replace("```", "")`. */
  lemma {:induction false} FenceRemovalKeepsWord(s: string, w: string)
    requires w != [] && '`' !in w
    requires Contains(s, w)
    ensures Contains(Replace(s, Fence, ""), w)
    decreases |s|
  {
    assert w[0] in w;
    StartsWithFence(s);
    if StartsWith(s, Fence) {
      // the occurrence cannot start on any of the three backticks
      assert !StartsWith(s, w) && Contains(s[1..], w);
      assert !StartsWith(s[1..], w) && Contains(s[1..][1..], w);
      assert s[1..][1..] == s[2..];
      assert !StartsWith(s[2..], w) && Contains(s[2..][1..], w);
      assert s[2..][1..] == s[3..];
      ReplaceHit(s, Fence, "");
      assert Replace(s, Fence, "") == Replace(s[3..], Fence, "");
      FenceRemovalKeepsWord(s[3..], w);
    } else if s != [] {
      var tail := Replace(s[1..], Fence, "");
      ReplaceMiss(s, Fence, "");
      if StartsWith(s, w) {
        var u := s[..|w|];
        assert u == w;
        assert s == u + s[|w|..];
        FenceRemovalSkipsPlainPrefix(u, s[|w|..]);
      } else {
        FenceRemovalKeepsWord(s[1..], w);
        ContainsCons(s[0], tail, w);
      }
    }
  }

  /** Text that holds no fence is only trimmed: the words `bash` and
      `python` are kept. */
  lemma CleanWithoutFence(s: string)
    requires !Contains(s, Fence)
    ensures CleanCommand(s) == Strip(s)
  {
    var t := Strip(s);
    StripKeepsAbsent(s, Fence);
    assert !StartsWith(t, Fence);
    ReplaceWithoutPattern(t, Fence, "");
    StripOfTrimmed(t);
  }

  /** When the trimmed text does not open with a fence, every word free of
      backticks and of leading or trailing whitespace that occurs in the
      input — `bash` and `python` among them — occurs in the result. */
  lemma UnfencedKeepsWords(s: string, w: string)
    requires !StartsWith(Strip(s), Fence)
    requires w != [] && '`' !in w && !IsSpace(w[0]) && !IsSpace(w[|w| - 1])
    requires Contains(s, w)
    ensures Contains(CleanCommand(s), w)
  {
    var t := Strip(s);
    StripKeepsWord(s, w);
    FenceRemovalKeepsWord(t, w);
    StripKeepsWord(Replace(t, Fence, ""), w);
  }

  /** `clean_command` is idempotent. */
  lemma CleanIdempotent(s: string)
    ensures CleanCommand(CleanCommand(s)) == CleanCommand(s)
  {
    var r := CleanCommand(s);
    StripOfTrimmed(r);
    CleanWithoutFence(r);
  }

  /** A fence in `body + "``"` lies inside `body` or covers its last
      character, which is then a backtick. */
  lemma FenceInSegment(body: string, i: int)
    requires OccursAt(body + Fence[..2], Fence, i)
    ensures OccursAt(body, Fence, i) || (body != [] && body[|body| - 1] == '`')
  {
    var w := body + Fence[..2];
    if i + 3 <= |body| {
      assert body[i..i + 3] == w[i..i + 3];
    } else {
      var j := |body| - 1;
      assert w[j] == body[j];
      assert w[j] == w[i..i + 3][j - i] == Fence[j - i];
    }
  }

  /** A fence-free segment that does not end in a backtick, followed by a
      fence, ends the first segment of a split on the fence. */
  lemma SegmentBeforeFence(body: string)
    requires !Contains(body, Fence)
    requires body == [] || body[|body| - 1] != '`'
    ensures !Contains(body + Fence[..2], Fence)
  {
    var w := body + Fence[..2];
    ContainsIffOccurs(w, Fence);
    ContainsIffOccurs(body, Fence);
    forall i | OccursAt(w, Fence, i) ensures false {
      FenceInSegment(body, i);
    }
  }

  /** Stripping text that opens with a trimmed, non-empty head only cuts
      into what follows the head. */
  lemma StripAfterTrimmedHead(head: string, rest: string) returns (kept: string)
    requires head != [] && IsTrimmed(head)
    ensures Strip(head + rest) == head + kept
  {
    kept := rest[..SkipSpaceBack(rest, 0, |rest|)];
    var x := head + rest;
    var y := head + kept;
    assert x[0..|y|] == y;
    assert SpaceBetween(x, |y|, |x|) by {
      forall p | |y| <= p < |x| ensures IsSpace(x[p]) {
        assert x[p] == rest[p - |head|];
      }
    }
    assert IsTrimmed(y) by {
      assert y[0] == head[0];
      if kept == [] {
        assert y == head;
      } else {
        assert y[|y| - 1] == kept[|kept| - 1];
      }
    }
    StripIsUnique(x, 0, |y|);
  }

  /** The second part of a split of `Fence + body + Fence + kept` is `body`. */
  lemma SecondSegment(body: string, kept: string)
    requires !Contains(body, Fence)
    requires body == [] || body[|body| - 1] != '`'
    ensures |Split(Fence + body + Fence + kept, Fence)| >= 2
    ensures Split(Fence + body + Fence + kept, Fence)[1] == body
  {
    var after := body + Fence + kept;
    assert Fence + body + Fence + kept == [] + Fence + after;
    ContainsNeedsRoom([] + Fence[..2], Fence);
    SplitAtFirst([], Fence, after);
    SegmentBeforeFence(body);
    SplitAtFirst(body, Fence, kept);
  }

  /** `CleanCommand` on text whose trimmed form opens with a fence. */
  lemma CleanFencedText(s: string, trimmed: string, segment: string)
    requires trimmed == Strip(s) && StartsWith(trimmed, Fence)
    requires segment == Split(trimmed, Fence)[1]
    ensures CleanCommand(s) == Strip(Replace(RemoveTags(segment), Fence, ""))
  {
  }

  /** For input `Fence + body + Fence + rest`, the result depends on `body`
      alone: whatever follows the second fence is discarded. */
  lemma FencedBlockAtStart(body: string, rest: string)
    requires !Contains(body, Fence)
    requires body == [] || body[|body| - 1] != '`'
    ensures CleanCommand(Fence + body + Fence + rest) == Strip(Replace(RemoveTags(body), Fence, ""))
  {
    var kept := StripFencedBlock(body, rest);
    SecondSegment(body, kept);
    CleanFencedText(Fence + body + Fence + rest, Fence + body + Fence + kept, body);
  }

  /** Whitespace in front of the model's reply makes no difference: the
      first `strip()` removes it. */
  lemma CleanPastSpace(ws: string, s: string)
    requires SpaceBetween(ws, 0, |ws|)
    ensures CleanCommand(ws + s) == CleanCommand(s)
  {
    StripPastSpace(ws, s);
  }

  /** For fenced input, possibly after leading whitespace, the result
      depends on the first block alone: whatever follows the second fence
      is discarded. */
  lemma FencedKeepsOnlyFirstBlock(ws: string, body: string, rest: string)
    requires SpaceBetween(ws, 0, |ws|)
    requires !Contains(body, Fence)
    requires body == [] || body[|body| - 1] != '`'
    ensures CleanCommand(ws + (Fence + body + Fence + rest)) == Strip(Replace(RemoveTags(body), Fence, ""))
  {
    CleanPastSpace(ws, Fence + body + Fence + rest);
    FencedBlockAtStart(body, rest);
  }

  /** Stripping `Fence + body + Fence + rest` only cuts into `rest`, and the
      result still opens with a fence. */
  lemma StripFencedBlock(body: string, rest: string) returns (kept: string)
    ensures Strip(Fence + body + Fence + rest) == Fence + body + Fence + kept
    ensures StartsWith(Fence + body + Fence + kept, Fence)
  {
    var head := Fence + body + Fence;
    assert head[0] == '`' && head[|head| - 1] == '`';
    kept := StripAfterTrimmedHead(head, rest);
    assert Fence + body + Fence + rest == head + rest;
    assert (head + kept)[..3] == Fence;
  }

  /** Text with no `b` and no `p` holds neither tag. */
  lemma TagFreeWithoutHeads(s: string)
    requires 'b' !in s && 'p' !in s
    ensures !Contains(s, "bash") && !Contains(s, "python")
  {
    NotContainsWithoutHead(s, "bash");
    NotContainsWithoutHead(s, "python");
  }

  /** Text holding neither tag passes tag removal unchanged. */
  lemma RemoveTagsWithoutTags(s: string)
    requires !Contains(s, "bash") && !Contains(s, "python")
    ensures RemoveTags(s) == s
  {
    ReplaceWithoutPattern(s, "bash", "");
    ReplaceWithoutPattern(s, "python", "");
  }

  /** A `bash` block cleans to its text after the tag with both tags
      deleted, trimmed, whenever that text holds no backtick. */
  lemma BashBlockCleans(line: string)
    requires '`' !in line
    ensures CleanCommand(Fence + "bash" + line + Fence) == Strip(RemoveTags(line))
  {
    var body := "bash" + line;
    assert Fence + "bash" + line + Fence == Fence + body + Fence + "";
    assert '`' !in body;
    NotContainsWithoutHead(body, Fence);
    FencedBlockAtStart(body, "");
    DeleteLeadingTag("bash", line);
    DeleteKeepsAbsentChar(line, "bash", '`');
    DeleteKeepsAbsentChar(Replace(line, "bash", ""), "python", '`');
    NotContainsWithoutHead(RemoveTags(line), Fence);
    ReplaceWithoutPattern(RemoveTags(line), Fence, "");
  }

  /** A word without a line break that does not occur in `cmd` does not
      occur in `cmd` set on a line of its own either, after a character
      `c` that the word does not hold. */
  lemma WordAbsentAcrossNewlines(c: char, w: string, cmd: string)
    requires w != [] && c !in w && '\n' !in w && !Contains(cmd, w)
    ensures !Contains([c] + (cmd + "\n"), w)
  {
    ContainsCons(c, cmd + ['\n'], w);
    assert w[0] in w;
    if Contains(cmd + ['\n'], w) {
      ContainsDropLast(cmd, '\n', w);
    }
  }

  /** Deleting `tag` from text that opens with it drops it and goes on. */
  lemma DeleteLeadingTag(tag: string, rest: string)
    requires tag != []
    ensures Replace(tag + rest, tag, "") == Replace(rest, tag, "")
  {
    ReplaceHit(tag + rest, tag, "");
    assert (tag + rest)[|tag|..] == rest;
  }

  /** Deleting `tag` passes over a character that cannot start it. */
  lemma DeleteTagSkipsChar(c: char, tag: string, rest: string)
    requires tag != [] && tag[0] != c
    ensures Replace([c] + rest, tag, "") == [c] + Replace(rest, tag, "")
  {
    ReplaceMiss([c] + rest, tag, "");
    assert ([c] + rest)[1..] == rest;
  }

  /** Deleting `tag` from a tag line followed by a line that starts with
      the same tag leaves the newline and the second line with every
      occurrence of the tag deleted. */
  lemma TagLineAndCommandLine(tag: string, s: string)
    requires tag != [] && tag[0] != '\n'
    ensures Replace(tag + ("\n" + tag + s), tag, "") == "\n" + Replace(s, tag, "")
  {
    var second := tag + s;
    assert "\n" + tag + s == ['\n'] + second;
    DeleteLeadingTag(tag, ['\n'] + second);
    DeleteTagSkipsChar('\n', tag, second);
    DeleteLeadingTag(tag, s);
  }

  /** A `bash` block whose command line starts with `bash` loses both, and
      the rest of the line loses its tags too. */
  lemma BashCommandInBashBlock(s: string)
    requires '`' !in s
    ensures CleanCommand(Fence + "bash" + "\n" + "bash" + s + Fence) == Strip("\n" + RemoveTags(s))
  {
    var line := "\n" + "bash" + s;
    assert Fence + "bash" + "\n" + "bash" + s + Fence == Fence + "bash" + line + Fence;
    assert '`' !in line;
    BashBlockCleans(line);
    assert RemoveTags(line) == "\n" + RemoveTags(s) by {
      DeleteLeadingTag("bash", line);
      TagLineAndCommandLine("bash", s);
      DeleteTagSkipsChar('\n', "python", Replace(s, "bash", ""));
    }
  }

  /** A trimmed command between two newlines is its own strip. */
  lemma StripLine(cmd: string)
    requires IsTrimmed(cmd)
    ensures Strip("\n" + cmd + "\n") == cmd
  {
    var line := "\n" + cmd + "\n";
    assert line[1..|line| - 1] == cmd;
    StripIsUnique(line, 1, |line| - 1);
  }

  /** A fenced `bash` block holding one trimmed command on its own line
      cleans to that command, provided the command holds neither tag nor a
      backtick for the tag and fence removal to touch. */
  lemma FencedBashBlock(cmd: string)
    requires IsTrimmed(cmd)
    requires !Contains(cmd, "bash") && !Contains(cmd, "python") && '`' !in cmd
    ensures CleanCommand(Fence + "bash\n" + cmd + "\n" + Fence) == cmd
  {
    var line := "\n" + cmd + "\n";
    assert Fence + "bash\n" + cmd + "\n" + Fence == Fence + "bash" + line + Fence;
    assert '`' !in line;
    BashBlockCleans(line);
    LineWithoutTags(cmd);
    StripLine(cmd);
  }

  /** A command holding neither tag, set on a line of its own, holds
      neither tag either. */
  lemma LineWithoutTags(cmd: string)
    requires !Contains(cmd, "bash") && !Contains(cmd, "python")
    ensures RemoveTags("\n" + cmd + "\n") == "\n" + cmd + "\n"
  {
    assert "\n" + cmd + "\n" == ['\n'] + (cmd + "\n");
    WordAbsentAcrossNewlines('\n', "bash", cmd);
    WordAbsentAcrossNewlines('\n', "python", cmd);
    RemoveTagsWithoutTags("\n" + cmd + "\n");
  }

  /** `FencedBashBlock` for a command with no `b` and no `p`, which
      therefore holds neither tag. */
  lemma LetterFreeBashBlock(cmd: string)
    requires IsTrimmed(cmd) && 'b' !in cmd && 'p' !in cmd && '`' !in cmd
    ensures CleanCommand(Fence + "bash\n" + cmd + "\n" + Fence) == cmd
  {
    TagFreeWithoutHeads(cmd);
    FencedBashBlock(cmd);
  }

  /** The block `bash` / `echo hi > x.txt` cleans to the command alone. */
  lemma FencedBlockExample()
    ensures CleanCommand(Fence + "bash\n" + "echo hi > x.txt" + "\n" + Fence) == "echo hi > x.txt"
  {
    LetterFreeBashBlock("echo hi > x.txt");
  }

  /** A `bash` block whose command line is `bash`, a space and a trimmed
      command holding neither tag nor a backtick cleans to that command:
      the `bash` in the command line is deleted as well. */
  lemma BashPrefixedCommand(cmd: string)
    requires IsTrimmed(cmd)
    requires !Contains(cmd, "bash") && !Contains(cmd, "python") && '`' !in cmd
    ensures CleanCommand(Fence + "bash" + "\n" + "bash" + (" " + cmd + "\n") + Fence) == cmd
  {
    var s := " " + cmd + "\n";
    assert '`' !in s;
    BashCommandInBashBlock(s);
    SpacedLineWithoutTags(cmd);
    StripSpacedLine(cmd);
  }

  /** A command holding neither tag, after a space and before a newline,
      holds neither tag either. */
  lemma SpacedLineWithoutTags(cmd: string)
    requires !Contains(cmd, "bash") && !Contains(cmd, "python")
    ensures RemoveTags(" " + cmd + "\n") == " " + cmd + "\n"
  {
    assert " " + cmd + "\n" == [' '] + (cmd + "\n");
    WordAbsentAcrossNewlines(' ', "bash", cmd);
    WordAbsentAcrossNewlines(' ', "python", cmd);
    RemoveTagsWithoutTags(" " + cmd + "\n");
  }

  /** A trimmed command after a newline and a space, ending in a newline,
      is its own strip. */
  lemma StripSpacedLine(cmd: string)
    requires IsTrimmed(cmd)
    ensures Strip("\n" + (" " + cmd + "\n")) == cmd
  {
    var line := "\n" + (" " + cmd + "\n");
    assert line[2..|line| - 1] == cmd;
    StripIsUnique(line, 2, |line| - 1);
  }

  /** Tag removal is not confined to the tag after the opening fence: the
      command `bash run.sh` in a fenced block loses its `bash` as well. */
  lemma TagRemovedFromCommandExample()
    ensures CleanCommand(Fence + "bash" + "\n" + "bash" + " run.sh\n" + Fence) == "run.sh"
  {
    assert " run.sh\n" == " " + "run.sh" + "\n";
    TagFreeWithoutHeads("run.sh");
    BashPrefixedCommand("run.sh");
  }

  /** A trimmed command without backticks comes out unchanged. */
  lemma PlainCommandUnchanged(s: string)
    requires '`' !in s && IsTrimmed(s)
    ensures CleanCommand(s) == s
  {
    NotContainsWithoutHead(s, Fence);
    CleanWithoutFence(s);
    StripOfTrimmed(s);
  }

  /** Without a fence the same command keeps its `bash`. */
  lemma UnfencedCommandExample()
    ensures CleanCommand("bash run.sh") == "bash run.sh"
  {
    PlainCommandUnchanged("bash run.sh");
  }

  /** The word `exit` passes through unchanged. */
  lemma ExitCommandExample()
    ensures CleanCommand("exit") == "exit"
  {
    PlainCommandUnchanged("exit");
  }
}
